=== FILE: README.md ===
# Automation Task Tool: a verified model of its task logic

The Automation Task Tool is a small Tk desktop program. It runs two maintenance jobs on a worker
thread, one after the other:

1. It deletes the files in a directory that are older than a number of days.
2. It copies a source directory tree to a new `backup_<YYYYMMDD_HHMMSS>` directory under a target.

A pause button and a stop button steer the worker between the two jobs. Each job reports one line
to a log view.

This project models the program's logic in Dafny, leaving out the GUI, the threads and the
filesystem:

- `results.dfy` (module `Results`): `Option` and `Outcome`, the stand-ins for Python exceptions.
  `Err(cause)` carries the text of the exception.
- `text.dfy` (module `Text`) has four helpers:
  - `Join`, which is Python's `", ".join`.
  - `SplitList`, its inverse for names without commas.
  - Prefixes.
  - Subsequences.
- `cleanup.dfy` (module `Cleanup`): `clean_up_old_files`.
  - The directory is a class, `Directory`, holding a table from entry name to `Entry(isFile, mtime)`.
  - The method `CleanUpOldFiles` runs the source's loop over the listing. It removes entries from
    the table in place.
  - It is proved equal to the function `Sweep`/`Clean`. The lemmas state what that function
    removes, reports and returns.
- `backup.dfy` (module `Backup`): how `backup_directory` builds the timestamp, the destination path
  and the report. The timestamp is proved to read back, so a destination determines its target
  and its second.
- `control.dfy` (module `Control`) covers `pause_task` and `stop_task`:
  - The two event flags plus the pause button's text and both buttons' enabled state form a value,
    `Signals`.
  - The class `ControlPanel` updates these in place, with methods proved against `Toggle` and
    `Halt`.
- `pipeline.dfy` (module `Pipeline`) models `task_thread` as a step function over phases:
  - The phases are `Cleaning → Waiting → CheckingStop → BackingUp | Stopping → Done`.
  - A run is any interleaving of four kinds of event: Start clicks, pause clicks, stop clicks and
    single worker steps.
  - Each worker step carries what its foreign calls return.

Some behaviour is modelled exactly as the code has it, even where it is not what a reader might
expect:

- A removal that raises ends the whole cleanup loop through the outer `except`. The loop does not
  skip that file and go on. Files removed before it stay removed and are not reported
  (`SweepStopsAtFailure`).
- `pause_task` does not look at the stop flag (`ToggleIgnoresStop`). A pause cannot follow a stop
  only because `stop_task` disables the pause button, and Tk ignores clicks on a disabled button
  (`PressPause`).
- `stop_task` does not reset the pause button's text. After stopping while paused, the (disabled)
  button still reads "恢复".
- Nothing rejects a second Start: every click spawns another worker (`StepKeepsWorkers`).
- All workers share the same two flags, and nothing clears the stop flag. So every run started
  after a Stop does its cleanup and then logs "任务已停止。" without backing up
  (`StoppedWorkersEndStopped`).
- `os.path.isfile` follows symbolic links. A link to a regular file counts as a file and is
  removed when old enough. `Entry.isFile` is what `isfile` reports.

## Model

| member | source | states |
|---|---|---|
| `Cleanup.CleanUpOldFiles` | AutomationTaskTool.py:33-56 | The loop removes from the directory exactly what `Clean` removes, and the method returns `Report` of it. A listing error returns "错误: " + cause and changes nothing. A removal that raises returns at once with "错误: " + cause. |
| `Cleanup.AgeInDays` | AutomationTaskTool.py:42 | The age in days times 86400 is the seconds elapsed since the last modification, and it is positive exactly when that time is in the past. |
| `Cleanup.Expired` | AutomationTaskTool.py:40-44 | A name counts as expired exactly when it names a regular file in the directory and more than `86400 * days` seconds have passed since its last modification. |
| `Cleanup.Sweep` | AutomationTaskTool.py:38-46 | The deletion loop over the listing, stopping at a removal that raises. Its contract: it only removes entries. What it removes and records is stated by the lemmas below. |
| `Cleanup.Clean` | AutomationTaskTool.py:34-46 | The `try` body up to the loop's end. It only removes entries, and a listing that raises leaves the directory unchanged and records a failure. |
| `Cleanup.Report` | AutomationTaskTool.py:48-56 | The returned string is always one of the three report forms: nothing to delete, names deleted, or error. |
| `Cleanup.SweepRemovesDeleted` | AutomationTaskTool.py:38-46 | On every path, including a failed removal, the directory afterwards is the old one minus exactly the names recorded in `deleted_files` (`p.deleted`), with entries unchanged. Each removed name was listed, was a regular file older than the threshold at the single `now`, and its removal did not raise. |
| `Cleanup.SweepDeletedInOrder` | AutomationTaskTool.py:38-46 | The names recorded in `deleted_files` (`p.deleted`) appear once each, in listing order: no repeats, and a subsequence of the listing. |
| `Cleanup.SweepSucceedsIff` | AutomationTaskTool.py:44-46 | The loop runs to the end if and only if no listed expired file's removal raises. |
| `Cleanup.SweepComplete` | AutomationTaskTool.py:38-46 | When the loop runs to the end, every listed expired regular file is deleted. |
| `Cleanup.SweepReportsExpiredFiles` | AutomationTaskTool.py:38-46 | For a listing without repeats, a loop that runs to the end reports exactly the listed expired files, in listing order. |
| `Cleanup.SweepStopsAtFailure` | AutomationTaskTool.py:38-46 | On a failed removal there is a position `k` where the loop stopped. `names[k]` is the first listed expired file whose removal raises, and the reported cause is its own. Every removed name was listed before `k`, and for a listing without repeats the removed files are exactly the expired files listed before `k`. |
| `Cleanup.CleanOutcome` | AutomationTaskTool.py:33-56 | Combines the cases of `clean_up_old_files`. A listing error leaves the directory unchanged and reports "错误: " + cause. Only the names recorded in `deleted_files` (`p.deleted`) are removed, and these are named in the report only on success. On success every listed expired file is removed, and every listed regular file left is at most `days` old. The error prefix appears exactly on failure. "没有需要删除的过期文件。" is returned exactly when nothing was deleted. |
| `Cleanup.ReportShape` | AutomationTaskTool.py:48-56 | Every report is one of the three forms. The leading text tells which case occurred: error, names deleted, or nothing to delete. |
| `Cleanup.DeletedNamesReadBack` | AutomationTaskTool.py:48-50 | A deletion report is "已删除过期文件: " followed by exactly the recorded names joined with ", ". When no name holds a comma, the names read back exactly from it, in order. |
| `Text.Join` | AutomationTaskTool.py:49-50 | `", ".join` is empty for no names; otherwise it starts with the first name and ends with the last. |
| `Text.SplitListJoin` | AutomationTaskTool.py:49-50 | Splitting `", ".join(xs)` gives back `xs` for a non-empty list whose items hold no comma (an empty list joins to `""`, which splits to `[""]`). |
| `Backup.Timestamp` | AutomationTaskTool.py:61 | `%Y%m%d_%H%M%S` is 15 characters with `_` at index 8. |
| `Backup.TimestampRoundTrip` | AutomationTaskTool.py:61 | `%Y%m%d_%H%M%S` is 15 characters: digits, then `_` at index 8, then digits. It parses back to the same moment. |
| `Backup.BackupPath` | AutomationTaskTool.py:62 | The destination starts with `backup_dir + "/backup_"` and is 23 characters longer than `backup_dir`. |
| `Backup.BackupPathReadBack` | AutomationTaskTool.py:62 | The destination is `backup_dir + "/backup_"` followed by the 15-character timestamp, which reads back to the moment. |
| `Backup.BackupPathInjective` | AutomationTaskTool.py:61-62 | Two backups share a destination only for the same target within the same second. |
| `Backup.BackupReport` | AutomationTaskTool.py:60-68 | The report starts with "备份完成: " exactly when the copy succeeded, and with "备份失败: " exactly when it raised. |
| `Backup.BackupReportShape` | AutomationTaskTool.py:65-68 | After its prefix, the report holds the destination on success and the cause on failure. |
| `Control.Toggle` | AutomationTaskTool.py:106-112 | `pause_task` negates the pause flag and leaves stop and the buttons' enabled states alone. The label follows the new flag: "恢复" when pause is now set, "暂停" when it is now clear. |
| `Control.Halt` | AutomationTaskTool.py:115-119 | `stop_task` sets stop, clears pause and disables both buttons, whatever the prior state. The pause label is unchanged. |
| `Control.ToggleTwice` | AutomationTaskTool.py:106-112 | Pausing twice restores the state whenever the label already matched the flag. |
| `Control.HaltIdempotent` | AutomationTaskTool.py:115-117 | Stopping twice is the same as stopping once. |
| `Control.ToggleIgnoresStop` | AutomationTaskTool.py:106-112 | `pause_task` after `stop_task` sets pause although stop is set. |
| `Control.StopNeverCleared` | AutomationTaskTool.py:115-117 | Neither action clears the stop flag. |
| `Control.PressPause` | AutomationTaskTool.py:169 | A pause click runs `pause_task` while the button is enabled: pause flips and the label follows it. On a disabled button it changes nothing. Stop and the enabled states never change. |
| `Control.PressStop` | AutomationTaskTool.py:172 | A stop click runs `stop_task` while the button is enabled: stop is set, pause cleared, both buttons disabled, the label kept. On a disabled button it changes nothing. |
| `Control.InitialConsistent` | AutomationTaskTool.py:147-148 | The freshly built controls are consistent: both buttons enabled, both flags clear, the label "暂停". |
| `Control.ClicksKeepConsistent` | AutomationTaskTool.py:118-119 | Clicks keep the controls consistent. Before a stop, both buttons work and the label follows pause. After it, both buttons are disabled and pause stays clear. |
| `Control.ControlPanel.constructor` | AutomationTaskTool.py:147-148 | Fresh events are unset, the pause button reads "暂停", and both buttons are enabled. |
| `Control.ControlPanel.PauseTask` | AutomationTaskTool.py:106-112 | Updates the panel in place to `Toggle` of its old state. |
| `Control.ControlPanel.StopTask` | AutomationTaskTool.py:115-119 | Updates the panel in place to `Halt` of its old state. |
| `Pipeline.Boot` | AutomationTaskTool.py:147-148 | The window as `create_gui` builds it (lines 169 and 172 for the buttons, 176 for the log): both events clear, the pause label "暂停", both buttons enabled, no worker, an empty log and no copy. `BootWellFormed` proves the invariant holds here. |
| `Pipeline.Emit` | AutomationTaskTool.py:71-75 | `update_log` (called at lines 87, 94 and 99): the line is appended at the end of the shared log and of worker `i`'s lines, and the worker moves to its next phase. Nothing else changes. `EmitWellFormed` proves every worker's lines stay in order in the log. |
| `Pipeline.Advance` | AutomationTaskTool.py:79-99 | One step of one worker. It never changes the flags or any other worker, and it appends at most one line to the log and at most one `copytree` call. |
| `Pipeline.Step` | AutomationTaskTool.py:103-117 | One event. Stop stays set. A worker step leaves the flags alone, and a click or a Start logs nothing, copies nothing and touches no directory. |
| `Pipeline.ReportsDisjoint` | AutomationTaskTool.py:86-99 | No log line is both a cleanup report and a final line (stopped, backup done or backup failed). |
| `Pipeline.BootWellFormed` | AutomationTaskTool.py:147-148 | The freshly built window satisfies the run invariant. |
| `Pipeline.StepWellFormed` | AutomationTaskTool.py:79-99 | Every event keeps the invariant. A worker's lines are, in order: nothing before cleanup, its cleanup report first, then at most one final line. Each worker's lines appear in the shared log in the order written. |
| `Pipeline.RunWellFormed` | AutomationTaskTool.py:79-99 | The invariant holds after every interleaving of clicks and worker steps. |
| `Pipeline.StepKeepsWorkers` | AutomationTaskTool.py:103 | Workers are only ever added. A Start click always appends a fresh worker at the cleanup step, whatever is running. A worker step changes no other worker. |
| `Pipeline.StopIsPermanent` | AutomationTaskTool.py:115-117 | Once set, stop stays set through any sequence of events. |
| `Pipeline.StopCheckDecides` | AutomationTaskTool.py:93-98 | After the pause loop, the stop flag alone chooses between logging the stop and backing up. The check itself logs and copies nothing. |
| `Pipeline.NoCopyAfterStop` | AutomationTaskTool.py:89-99 | Once stop is set and no worker is at its backup step, `copytree` is never called again, whatever events follow. |
| `Pipeline.StoppedWorkersEndStopped` | AutomationTaskTool.py:89-99 | Once stop is set, in any state: every worker not yet past the stop test, and every worker started later, never backs up. Any of them that finishes logs "任务已停止。" last. Workers that already backed up are not constrained. |
| `Pipeline.PausedWorkerWaits` | AutomationTaskTool.py:89-91 | While pause is set and nobody clicks pause or stop, a waiting worker stays exactly where it is, whatever other events happen. |
| `Pipeline.UninterruptedRun` | AutomationTaskTool.py:85-99 | With neither flag set, a started worker logs its cleanup report and then the backup report. It calls `copytree` once, into `target/backup_<timestamp>`. This holds even when cleanup failed. |
| `Pipeline.StoppedRun` | AutomationTaskTool.py:85-95 | With stop already set, a started worker logs its cleanup report, then "任务已停止。", and never calls `copytree`. |

## Left out

- The Tk window, widgets and `update_log` (lines 71-75, 122-181) are not modelled. Logging a line is
  appending it to `System.log`. Only the flag and button-state effects of the buttons are kept.
- `setup_logging`, `read_config` and the `logging` calls are not modelled. They are side channels,
  and the configuration file is I/O.
- Parsing `ExpirationDays` with `int()` is not modelled. A worker receives the threshold as an
  integer, so the thread dying on a non-numeric value is not covered.
- Threads and `time.sleep(1)` are not modelled. Concurrency is an interleaving of events, and each
  poll of the pause loop is one worker step.
- The foreign calls are inputs, not code:
  - `os.listdir`, `os.path.isfile`, `os.path.getmtime` and `time.time` give the listing outcome,
    the table entries and `now`.
  - Which `os.remove` calls raise, and their causes, is an input map.
  - `datetime.now()` and the outcome of `shutil.copytree` are inputs.
  - An entry vanishing between the listing and `getmtime` is not modelled.
- The files `copytree` copies are not modelled. A copy is recorded as a (source, destination)
  call, whatever its outcome, so whether the destination already exists is not tracked.
- Each call of `clean_up_old_files` and each call of `backup_directory` is one atomic step. Two workers
  spawned by two Start clicks therefore cannot interleave inside their cleanups of the same
  directory. In the program they can: one worker may remove a file between another worker's
  listing and its `getmtime` or `os.remove`. That makes the second worker's call raise and report
  "错误: …" after a partial sweep. In the model the second worker skips the vanished entry.
- Floating-point time is not modelled: times are exact reals, so rounding in the age division is
  not captured.
- `Backup.TimestampRoundTrip`: `%Y` is modelled as four zero-padded digits for every year from 1 to
  9999. Some C libraries print years below 1000 without padding.

=== FILE: backup.dfy ===
/**
 * Backup destination and report (`backup_directory`).
 *
 * The clock reading `datetime.now()` is an input, and `shutil.copytree` is an opaque outcome:
 * `None` when the copy succeeded, `Some(cause)` when it raised.
 */
module Backup {
  import opened Results
  import opened Text

  /** A `datetime` down to the second (the resolution `%Y%m%d_%H%M%S` keeps). */
  datatype Stamp = Stamp(year: int, month: int, day: int, hour: int, minute: int, second: int)

  predicate IsLeapYear(y: int)
  {
    (y % 4 == 0 && y % 100 != 0) || y % 400 == 0
  }

  function DaysInMonth(y: int, m: int): int
  {
    if m == 2 then (if IsLeapYear(y) then 29 else 28)
    else if m == 4 || m == 6 || m == 9 || m == 11 then 30
    else 31
  }

  /** The field ranges `datetime` enforces on every value it builds. */
  predicate ValidStamp(t: Stamp)
  {
    && 1 <= t.year <= 9999
    && 1 <= t.month <= 12
    && 1 <= t.day <= DaysInMonth(t.year, t.month)
    && 0 <= t.hour < 24
    && 0 <= t.minute < 60
    && 0 <= t.second < 60
  }

  type Moment = t: Stamp | ValidStamp(t) witness Stamp(1970, 1, 1, 0, 0, 0)

  predicate IsDigits(s: string)
  {
    forall i :: 0 <= i < |s| ==> '0' <= s[i] <= '9'
  }

  function Digit(d: nat): char
    requires d < 10
  {
    ('0' as int + d) as char
  }

  function DigitValue(c: char): int
  {
    c as int - '0' as int
  }

  /** `%02d`. */
  function Pad2(n: nat): (s: string)
    requires n < 100
    ensures |s| == 2 && IsDigits(s)
  {
    [Digit(n / 10), Digit(n % 10)]
  }

  /** `%04d`. */
  function Pad4(n: nat): (s: string)
    requires n < 10000
    ensures |s| == 4 && IsDigits(s)
  {
    Pad2(n / 100) + Pad2(n % 100)
  }

  function Decimal2(s: string): int
    requires |s| == 2
  {
    10 * DigitValue(s[0]) + DigitValue(s[1])
  }

  function Decimal4(s: string): int
    requires |s| == 4
  {
    100 * Decimal2(s[..2]) + Decimal2(s[2..])
  }

  /** Padding to two or four digits loses nothing for numbers that fit. */
  lemma DecimalPad(n: nat)
    requires n < 10000
    ensures n < 100 ==> Decimal2(Pad2(n)) == n
    ensures Decimal4(Pad4(n)) == n
  {
    var s := Pad4(n);
    assert s[..2] == Pad2(n / 100) && s[2..] == Pad2(n % 100);
  }

  /** `strftime("%Y%m%d_%H%M%S")`. */
  function Timestamp(t: Moment): (s: string)
    ensures |s| == 15 && s[8] == '_'
  {
    Pad4(t.year) + Pad2(t.month) + Pad2(t.day) + "_" + Pad2(t.hour) + Pad2(t.minute) + Pad2(t.second)
  }

  /** Reads a `%Y%m%d_%H%M%S` string back; `None` for anything not of that shape. */
  function ParseTimestamp(s: string): Option<Stamp>
  {
    if |s| == 15 && s[8] == '_' && IsDigits(s[..8]) && IsDigits(s[9..]) then
      Some(Stamp(Decimal4(s[..4]), Decimal2(s[4..6]), Decimal2(s[6..8]),
                 Decimal2(s[9..11]), Decimal2(s[11..13]), Decimal2(s[13..15])))
    else None
  }

  /** Where the six fields sit in a `%Y%m%d_%H%M%S` string. */
  lemma TimestampFields(y: string, mo: string, d: string, h: string, mi: string, se: string)
    requires |y| == 4 && |mo| == 2 && |d| == 2 && |h| == 2 && |mi| == 2 && |se| == 2
    requires IsDigits(y) && IsDigits(mo) && IsDigits(d) && IsDigits(h) && IsDigits(mi) && IsDigits(se)
    ensures var s := y + mo + d + "_" + h + mi + se;
      && |s| == 15 && s[8] == '_' && IsDigits(s[..8]) && IsDigits(s[9..])
      && s[..4] == y && s[4..6] == mo && s[6..8] == d && s[9..11] == h && s[11..13] == mi && s[13..15] == se
  {
    var s := y + mo + d + "_" + h + mi + se;
    assert s[..8] == y + mo + d;
    assert s[9..] == h + mi + se;
  }

  /** The timestamp is 15 characters, digits around a `_`, and it determines the moment. */
  lemma TimestampRoundTrip(t: Moment)
    ensures var s := Timestamp(t);
      |s| == 15 && s[8] == '_' && IsDigits(s[..8]) && IsDigits(s[9..])
    ensures ParseTimestamp(Timestamp(t)).Some? && ParseTimestamp(Timestamp(t)).value == t
  {
    var y, mo, d := Pad4(t.year), Pad2(t.month), Pad2(t.day);
    var h, mi, se := Pad2(t.hour), Pad2(t.minute), Pad2(t.second);
    TimestampFields(y, mo, d, h, mi, se);
    DecimalPad(t.year);
    DecimalPad(t.month);
    DecimalPad(t.day);
    DecimalPad(t.hour);
    DecimalPad(t.minute);
    DecimalPad(t.second);
  }

  const BackupInfix: string := "/backup_"
  const DonePrefix: string := "备份完成: "
  const FailPrefix: string := "备份失败: "

  /** `f"{backup_dir}/backup_{timestamp}"`. */
  function BackupPath(target: string, t: Moment): (p: string)
    ensures |p| == |target| + 23 && StartsWith(p, target + BackupInfix)
  {
    target + BackupInfix + Timestamp(t)
  }

  /** The destination names its target directory and, in its last 15 characters, the moment. */
  lemma BackupPathReadBack(target: string, t: Moment)
    ensures var p := BackupPath(target, t);
      |p| == |target| + 23 && p[..|p| - 15] == target + BackupInfix && ParseTimestamp(p[|p| - 15..]).Some?
        && ParseTimestamp(p[|p| - 15..]).value == t
  {
    var p := BackupPath(target, t);
    assert p[|p| - 15..] == Timestamp(t);
    TimestampRoundTrip(t);
  }

  /** Two backups get different destinations unless they share the target and the second. */
  lemma BackupPathInjective(target1: string, t1: Moment, target2: string, t2: Moment)
    ensures target1 != target2 || t1 != t2 ==> BackupPath(target1, t1) != BackupPath(target2, t2)
  {
    BackupPathReadBack(target1, t1);
    BackupPathReadBack(target2, t2);
    if BackupPath(target1, t1) == BackupPath(target2, t2) {
      var p := BackupPath(target1, t1);
      var head := p[..|p| - 15];
      assert |target1| == |target2|;
      assert target1 == (target1 + BackupInfix)[..|target1|] == head[..|target1|];
      assert target2 == (target2 + BackupInfix)[..|target2|] == head[..|target2|];
    }
  }

  /** The string `backup_directory(source_dir, backup_dir)` returns when `datetime.now()` reads `t`
      and `copytree` ends with `copyError`. */
  function BackupReport(target: string, t: Moment, copyError: Option<string>): (m: string)
    ensures copyError.None? <==> StartsWith(m, DonePrefix)
    ensures copyError.Some? <==> StartsWith(m, FailPrefix)
  {
    assert DonePrefix[2] != FailPrefix[2];
    match copyError
    case None => DonePrefix + BackupPath(target, t)
    case Some(cause) => FailPrefix + cause
  }

  /** After its prefix, a backup report gives back the destination it made or the cause of the
      failure. */
  lemma BackupReportShape(target: string, t: Moment, copyError: Option<string>)
    ensures var m := BackupReport(target, t, copyError);
      && (copyError.None? ==> m[|DonePrefix|..] == BackupPath(target, t))
      && (copyError.Some? ==> m[|FailPrefix|..] == copyError.value)
  {
  }
}

=== FILE: cleanup.dfy ===
/**
 * Expired-file cleanup (`clean_up_old_files`).
 *
 * The directory is a table from entry name to what `os.path.isfile` and `os.path.getmtime`
 * report for it. `os.listdir`, `time.time` and `os.remove` are foreign: the listing (or the
 * cause of its failure), the clock reading and the set of entries whose removal raises are
 * inputs.
 */
module Cleanup {
  import opened Results
  import opened Text

  /** What the loop asks of one listed name: is it a regular file, and when was it last modified. */
  datatype Entry = Entry(isFile: bool, mtime: real)

  type Table = map<string, Entry>

  /** `3600 * 24`, the divisor that turns an age in seconds into days. */
  const SecondsPerDay: real := 86400.0

  const NothingToDelete: string := "没有需要删除的过期文件。"
  const DeletedPrefix: string := "已删除过期文件: "
  const ErrorPrefix: string := "错误: "

  /** Age in days of a file last modified at `mtime`, seen at `now`: the seconds elapsed, in days. */
  function AgeInDays(now: real, mtime: real): (age: real)
    ensures age * SecondsPerDay == now - mtime
    ensures now - mtime > 0.0 <==> age > 0.0
  {
    (now - mtime) / SecondsPerDay
  }

  /** `name` is a regular file of `entries` whose age in days, seen at `now`, exceeds `days`. */
  predicate Expired(entries: Table, name: string, now: real, days: int): (r: bool)
    ensures r <==> name in entries && entries[name].isFile && now - entries[name].mtime > SecondsPerDay * days as real
  {
    name in entries && entries[name].isFile && AgeInDays(now, entries[name].mtime) > days as real
  }

  /** What the loop leaves behind: the table afterwards, the names it removed (in removal order),
      and the cause of the removal that raised, if one did. */
  datatype Swept = Swept(entries: Table, deleted: seq<string>, failure: Option<string>)

  /** The deletion loop over `names`, stated as a recursion on the listing. A removal that raises
      ends the walk at once; removals done before it stand. */
  function Sweep(entries: Table, names: seq<string>, locked: map<string, string>, now: real, days: int): (p: Swept)
    ensures p.entries.Keys <= entries.Keys
    decreases |names|
  {
    if names == [] then Swept(entries, [], None)
    else if !Expired(entries, names[0], now, days) then Sweep(entries, names[1..], locked, now, days)
    else if names[0] in locked then Swept(entries, [], Some(locked[names[0]]))
    else
      var rest := Sweep(entries - {names[0]}, names[1..], locked, now, days);
      Swept(rest.entries, [names[0]] + rest.deleted, rest.failure)
  }

  /** The whole `try` block: a listing that raises leaves the directory as it was. */
  function Clean(entries: Table, listing: Outcome<seq<string>>, locked: map<string, string>, now: real, days: int): (p: Swept)
    ensures p.entries.Keys <= entries.Keys
    ensures listing.Err? ==> p.entries == entries && p.failure.Some?
  {
    match listing
    case Err(cause) => Swept(entries, [], Some(cause))
    case Ok(names) => Sweep(entries, names, locked, now, days)
  }

  /** The string `clean_up_old_files` returns. */
  function Report(p: Swept): (m: string)
    ensures IsCleanupReport(m)
  {
    match p.failure
    case Some(cause) => ErrorPrefix + cause
    case None => if p.deleted == [] then NothingToDelete else DeletedPrefix + Join(p.deleted, ", ")
  }

  /** The three shapes a cleanup report can take. */
  predicate IsCleanupReport(m: string)
  {
    m == NothingToDelete || StartsWith(m, DeletedPrefix) || StartsWith(m, ErrorPrefix)
  }

  /** The directory `clean_up_old_files` works on: `os.remove` deletes from `entries` in place. */
  class Directory {
    var entries: Table

    constructor (entries: Table)
      ensures this.entries == entries
    {
      this.entries := entries;
    }
  }

  /** Prepends the names removed so far to what the rest of the loop removes. */
  function After(done: seq<string>, p: Swept): Swept
  {
    Swept(p.entries, done + p.deleted, p.failure)
  }

  /** `clean_up_old_files(directory, days_threshold)`, with `now` the value of `time.time()` taken
      before the listing and `locked` the entries whose `os.remove` raises (with its cause). */
  method CleanUpOldFiles(dir: Directory, listing: Outcome<seq<string>>, locked: map<string, string>, now: real, days: int)
    returns (message: string)
    modifies dir
    ensures dir.entries == Clean(old(dir.entries), listing, locked, now, days).entries
    ensures message == Report(Clean(old(dir.entries), listing, locked, now, days))
  {
    if listing.Err? {
      return ErrorPrefix + listing.cause;
    }
    var names := listing.value;
    ghost var start := dir.entries;
    var deleted: seq<string> := [];
    var i := 0;
    while i < |names|
      invariant 0 <= i <= |names|
      invariant Sweep(start, names, locked, now, days) == After(deleted, Sweep(dir.entries, names[i..], locked, now, days))
    {
      var name := names[i];
      assert names[i..][0] == name && names[i..][1..] == names[i + 1..];
      if name in dir.entries && dir.entries[name].isFile {
        var age := (now - dir.entries[name].mtime) / SecondsPerDay;
        if age > days as real {
          if name in locked {
            return ErrorPrefix + locked[name];
          }
          ghost var rest := Sweep(dir.entries - {name}, names[i + 1..], locked, now, days);
          assert After(deleted, Swept(rest.entries, [name] + rest.deleted, rest.failure)) == After(deleted + [name], rest);
          dir.entries := dir.entries - {name};
          deleted := deleted + [name];
        }
      }
      i := i + 1;
    }
    assert deleted + [] == deleted;
    if deleted == [] {
      message := NothingToDelete;
    } else {
      message := DeletedPrefix + Join(deleted, ", ");
    }
  }

  /** Whatever happens, the loop only removes entries, and exactly the ones recorded in `deleted`:
      each a listed expired file whose removal did not raise. */
  lemma {:induction false} SweepRemovesDeleted(entries: Table, names: seq<string>, locked: map<string, string>, now: real, days: int)
    ensures var p := Sweep(entries, names, locked, now, days);
      && (forall n :: n in p.entries <==> n in entries && n !in p.deleted)
      && (forall n :: n in p.entries ==> p.entries[n] == entries[n])
      && (forall n :: n in p.deleted ==> n in names && Expired(entries, n, now, days) && n !in locked)
    decreases |names|
  {
    if names != [] {
      var n0 := names[0];
      var tail := names[1..];
      assert forall n :: n in tail ==> n in names;
      if !Expired(entries, n0, now, days) {
        SweepRemovesDeleted(entries, tail, locked, now, days);
      } else if n0 !in locked {
        var rest := entries - {n0};
        SweepRemovesDeleted(rest, tail, locked, now, days);
        var r := Sweep(rest, tail, locked, now, days);
        assert forall n :: n in [n0] + r.deleted <==> n == n0 || n in r.deleted;
        assert forall n :: Expired(rest, n, now, days) ==> Expired(entries, n, now, days);
      }
    }
  }

  /** Each name recorded in `deleted` appears once, and in listing order. */
  lemma {:induction false} SweepDeletedInOrder(entries: Table, names: seq<string>, locked: map<string, string>, now: real, days: int)
    ensures var p := Sweep(entries, names, locked, now, days);
      Distinct(p.deleted) && Subsequence(p.deleted, names)
    decreases |names|
  {
    if names != [] {
      var n0 := names[0];
      var tail := names[1..];
      if !Expired(entries, n0, now, days) {
        SweepDeletedInOrder(entries, tail, locked, now, days);
      } else if n0 !in locked {
        var rest := entries - {n0};
        SweepDeletedInOrder(rest, tail, locked, now, days);
        SweepRemovesDeleted(rest, tail, locked, now, days);
        var r := Sweep(rest, tail, locked, now, days);
        var d := [n0] + r.deleted;
        assert n0 !in r.deleted;
        assert d[0] == names[0] && d[1..] == r.deleted;
      }
    }
  }

  /** The loop runs to the end exactly when no listed expired file refuses removal. */
  lemma {:induction false} SweepSucceedsIff(entries: Table, names: seq<string>, locked: map<string, string>, now: real, days: int)
    ensures Sweep(entries, names, locked, now, days).failure.None?
        <==> forall n :: n in names && Expired(entries, n, now, days) ==> n !in locked
    decreases |names|
  {
    if names != [] {
      var n0 := names[0];
      var tail := names[1..];
      assert forall n :: n in names <==> n == n0 || n in tail;
      if !Expired(entries, n0, now, days) {
        SweepSucceedsIff(entries, tail, locked, now, days);
      } else if n0 !in locked {
        SweepSucceedsIff(entries - {n0}, tail, locked, now, days);
        assert forall n :: n != n0 ==> (Expired(entries - {n0}, n, now, days) <==> Expired(entries, n, now, days));
      }
    }
  }

  /** A loop that runs to the end deletes every listed expired file. */
  lemma {:induction false} SweepComplete(entries: Table, names: seq<string>, locked: map<string, string>, now: real, days: int)
    requires Sweep(entries, names, locked, now, days).failure.None?
    ensures forall n :: n in names && Expired(entries, n, now, days) ==> n in Sweep(entries, names, locked, now, days).deleted
    decreases |names|
  {
    if names != [] {
      var n0 := names[0];
      var tail := names[1..];
      assert forall n :: n in names <==> n == n0 || n in tail;
      if !Expired(entries, n0, now, days) {
        SweepComplete(entries, tail, locked, now, days);
      } else {
        SweepComplete(entries - {n0}, tail, locked, now, days);
        assert forall n :: n != n0 ==> (Expired(entries - {n0}, n, now, days) <==> Expired(entries, n, now, days));
      }
    }
  }

  /** The listed names that are expired files of `entries`, in listing order. */
  function ExpiredFiles(entries: Table, names: seq<string>, now: real, days: int): seq<string>
    decreases |names|
  {
    if names == [] then []
    else (if Expired(entries, names[0], now, days) then [names[0]] else []) + ExpiredFiles(entries, names[1..], now, days)
  }

  /** Dropping an entry that is not listed does not change which listed names are expired. */
  lemma {:induction false} ExpiredFilesUnlisted(entries: Table, gone: string, names: seq<string>, now: real, days: int)
    requires gone !in names
    ensures ExpiredFiles(entries - {gone}, names, now, days) == ExpiredFiles(entries, names, now, days)
    decreases |names|
  {
    if names != [] {
      assert names[0] != gone;
      ExpiredFilesUnlisted(entries, gone, names[1..], now, days);
    }
  }

  /** For a listing without repeats (as `os.listdir` gives), a loop that runs to the end reports
      exactly the listed expired files, in listing order. */
  lemma {:induction false} SweepReportsExpiredFiles(entries: Table, names: seq<string>, locked: map<string, string>, now: real, days: int)
    requires Distinct(names)
    requires Sweep(entries, names, locked, now, days).failure.None?
    ensures Sweep(entries, names, locked, now, days).deleted == ExpiredFiles(entries, names, now, days)
    decreases |names|
  {
    if names != [] {
      var n0 := names[0];
      var tail := names[1..];
      assert Distinct(tail);
      if !Expired(entries, n0, now, days) {
        SweepReportsExpiredFiles(entries, tail, locked, now, days);
      } else {
        assert n0 !in tail;
        SweepReportsExpiredFiles(entries - {n0}, tail, locked, now, days);
        ExpiredFilesUnlisted(entries, n0, tail, now, days);
      }
    }
  }

  /** The loop `p` ended at position `k`: `names[k]` is the first listed expired file whose removal
      raised, its cause is the one reported, and every name removed before it was listed before it.
      For a listing without repeats, those are exactly the expired files listed before `k`. */
  predicate FailsAt(entries: Table, names: seq<string>, locked: map<string, string>, now: real, days: int, p: Swept, k: int)
  {
    && 0 <= k < |names|
    && Expired(entries, names[k], now, days) && names[k] in locked
    && p.failure.Some? && p.failure.value == locked[names[k]]
    && (forall j :: 0 <= j < k && Expired(entries, names[j], now, days) ==> names[j] !in locked)
    && (forall n :: n in p.deleted ==> n in names[..k])
    && (Distinct(names) ==> p.deleted == ExpiredFiles(entries, names[..k], now, days))
  }

  /** A removal that raises ends the loop at the first listed expired file whose removal raises;
      the files removed before it stay removed, and nothing listed after it is touched. */
  lemma {:induction false} SweepStopsAtFailure(entries: Table, names: seq<string>, locked: map<string, string>, now: real, days: int)
    requires Sweep(entries, names, locked, now, days).failure.Some?
    ensures exists k :: FailsAt(entries, names, locked, now, days, Sweep(entries, names, locked, now, days), k)
    decreases |names|
  {
    var p := Sweep(entries, names, locked, now, days);
    var n0 := names[0];
    var tail := names[1..];
    if !Expired(entries, n0, now, days) {
      SweepStopsAtFailure(entries, tail, locked, now, days);
      var k :| FailsAt(entries, tail, locked, now, days, p, k);
      FailsAtAfterSkip(entries, names, locked, now, days, p, k);
    } else if n0 in locked {
      assert FailsAt(entries, names, locked, now, days, p, 0);
    } else {
      var rest := entries - {n0};
      SweepStopsAtFailure(rest, tail, locked, now, days);
      var r := Sweep(rest, tail, locked, now, days);
      var k :| FailsAt(rest, tail, locked, now, days, r, k);
      FailsAtAfterRemoval(entries, names, locked, now, days, r, k);
    }
  }

  /** The step of SweepStopsAtFailure past a first name that is not an expired file. */
  lemma FailsAtAfterSkip(entries: Table, names: seq<string>, locked: map<string, string>, now: real, days: int, p: Swept, k: int)
    requires names != [] && !Expired(entries, names[0], now, days)
    requires FailsAt(entries, names[1..], locked, now, days, p, k)
    ensures FailsAt(entries, names, locked, now, days, p, k + 1)
  {
    var tail := names[1..];
    assert Distinct(names) ==> Distinct(tail);
    assert names[k + 1] == tail[k];
    assert names[..k + 1][0] == names[0] && names[..k + 1][1..] == tail[..k];
    assert forall n :: n in tail[..k] ==> n in names[..k + 1];
    forall j | 0 < j < k + 1 && Expired(entries, names[j], now, days)
      ensures names[j] !in locked
    {
      assert names[j] == tail[j - 1];
    }
  }

  /** The step of SweepStopsAtFailure past a first name that was removed. */
  lemma FailsAtAfterRemoval(entries: Table, names: seq<string>, locked: map<string, string>, now: real, days: int, r: Swept, k: int)
    requires names != [] && Expired(entries, names[0], now, days) && names[0] !in locked
    requires FailsAt(entries - {names[0]}, names[1..], locked, now, days, r, k)
    ensures FailsAt(entries, names, locked, now, days, Swept(r.entries, [names[0]] + r.deleted, r.failure), k + 1)
  {
    var n0 := names[0];
    var tail := names[1..];
    var rest := entries - {n0};
    var p := Swept(r.entries, [n0] + r.deleted, r.failure);
    assert names[k + 1] == tail[k];
    assert names[..k + 1][0] == n0 && names[..k + 1][1..] == tail[..k];
    assert forall n :: n in tail[..k] ==> n in names[..k + 1];
    assert n0 in names[..k + 1];
    assert forall n :: n in p.deleted ==> n == n0 || n in r.deleted;
    forall j | 0 < j < k + 1 && Expired(entries, names[j], now, days)
      ensures names[j] !in locked
    {
      assert names[j] == tail[j - 1];
      if names[j] != n0 {
        assert Expired(rest, tail[j - 1], now, days);
      }
    }
    if Distinct(names) {
      assert Distinct(tail);
      assert n0 !in tail[..k];
      ExpiredFilesUnlisted(entries, n0, tail[..k], now, days);
    }
  }

  /** The three outcomes of `clean_up_old_files` in full. A listing that raises changes nothing.
      Otherwise every removed entry was a listed expired file; if no removal raised, all of them
      were removed and the report names them, and every listed regular file left behind is at
      most `days` old. The report says which case happened. */
  lemma CleanOutcome(entries: Table, listing: Outcome<seq<string>>, locked: map<string, string>, now: real, days: int)
    ensures var p := Clean(entries, listing, locked, now, days);
      && (listing.Err? ==> p.entries == entries && Report(p) == ErrorPrefix + listing.cause)
      && (forall n :: n in p.entries ==> n in entries && p.entries[n] == entries[n])
      && (forall n :: n in entries && n !in p.entries <==> n in p.deleted)
      && (listing.Ok? ==> forall n :: n in p.deleted ==> n in listing.value && Expired(entries, n, now, days))
      && (listing.Ok? && p.failure.None? ==>
            forall n :: n in listing.value && n in p.entries && p.entries[n].isFile ==>
              AgeInDays(now, p.entries[n].mtime) <= days as real)
      && (listing.Ok? && p.failure.None? ==> forall n :: n in listing.value && Expired(entries, n, now, days) ==> n in p.deleted)
      && (p.failure.Some? <==> StartsWith(Report(p), ErrorPrefix))
      && (Report(p) == NothingToDelete <==> p.failure.None? && p.deleted == [])
  {
    var p := Clean(entries, listing, locked, now, days);
    if listing.Ok? {
      SweepRemovesDeleted(entries, listing.value, locked, now, days);
      if p.failure.None? {
        SweepComplete(entries, listing.value, locked, now, days);
      }
    }
    ReportShape(p);
  }

  /** Which report is produced is told by its first characters. */
  lemma ReportShape(p: Swept)
    ensures p.failure.Some? <==> StartsWith(Report(p), ErrorPrefix)
    ensures p.failure.None? && p.deleted != [] <==> StartsWith(Report(p), DeletedPrefix)
    ensures Report(p) == NothingToDelete <==> p.failure.None? && p.deleted == []
  {
    var m := Report(p);
    assert m[0] == ErrorPrefix[0] <==> p.failure.Some?;
    assert m[0] == DeletedPrefix[0] <==> p.failure.None? && p.deleted != [];
  }

  /** A success report lists the deleted names joined with ", "; when the names hold no comma they
      can be read back from it, in order. */
  lemma DeletedNamesReadBack(p: Swept)
    requires p.failure.None? && p.deleted != []
    requires forall i :: 0 <= i < |p.deleted| ==> ',' !in p.deleted[i]
    ensures StartsWith(Report(p), DeletedPrefix)
    ensures Report(p)[|DeletedPrefix|..] == Join(p.deleted, ", ")
    ensures SplitList(Report(p)[|DeletedPrefix|..]) == p.deleted
  {
    var m := Report(p);
    assert m[|DeletedPrefix|..] == Join(p.deleted, ", ");
    SplitListJoin(p.deleted);
  }
}

=== FILE: control.dfy ===
/**
 * Pause and stop control (`pause_task`, `stop_task`).
 *
 * The two `threading.Event` flags and the parts of the two buttons these functions touch: the
 * pause button's text and whether each button is enabled.
 */
module Control {

  const PauseLabel: string := "暂停"
  const ResumeLabel: string := "恢复"

  /** `pause_event`, `stop_event`, the pause button's text and the two buttons' enabled states. */
  datatype Signals = Signals(pause: bool, stop: bool, pauseLabel: string, pauseEnabled: bool, stopEnabled: bool)

  /** Both events fresh (unset), the pause button reading "暂停", both buttons enabled. */
  const Initial: Signals := Signals(false, false, PauseLabel, true, true)

  /** `pause_task`: flip the pause flag and make the pause button's text follow it. */
  function Toggle(s: Signals): (r: Signals)
    ensures r.pause == !s.pause && r.stop == s.stop
    ensures LabelFollowsPause(r)
    ensures r.pauseEnabled == s.pauseEnabled && r.stopEnabled == s.stopEnabled
  {
    if s.pause then s.(pause := false, pauseLabel := PauseLabel)
    else s.(pause := true, pauseLabel := ResumeLabel)
  }

  /** `stop_task`: set the stop flag, clear the pause flag, disable both buttons. The pause button's
      text is left as it was. */
  function Halt(s: Signals): (r: Signals)
    ensures r.stop && !r.pause && !r.pauseEnabled && !r.stopEnabled
    ensures r.pauseLabel == s.pauseLabel
  {
    s.(stop := true, pause := false, pauseEnabled := false, stopEnabled := false)
  }

  /** The pause button's text says "恢复" exactly when the task is paused. */
  predicate LabelFollowsPause(s: Signals)
  {
    s.pauseLabel == (if s.pause then ResumeLabel else PauseLabel)
  }

  /** Pausing twice restores the state, as long as the label already followed the flag. */
  lemma ToggleTwice(s: Signals)
    requires LabelFollowsPause(s)
    ensures Toggle(Toggle(s)) == s
  {
  }

  /** Stopping again changes nothing. */
  lemma HaltIdempotent(s: Signals)
    ensures Halt(Halt(s)) == Halt(s)
  {
  }

  /** `pause_task` does not look at the stop flag: called after a stop it sets pause anyway. */
  lemma ToggleIgnoresStop(s: Signals)
    ensures Toggle(Halt(s)).pause && Toggle(Halt(s)).stop
  {
  }

  /** Neither action ever clears the stop flag. */
  lemma StopNeverCleared(s: Signals)
    ensures s.stop ==> Toggle(s).stop
    ensures Halt(s).stop
  {
  }

  /** A click on the pause button: Tk runs `pause_task` only while the button is enabled. */
  function PressPause(s: Signals): (r: Signals)
    ensures r.stop == s.stop && r.stopEnabled == s.stopEnabled && r.pauseEnabled == s.pauseEnabled
    ensures s.pauseEnabled ==> r.pause == !s.pause && LabelFollowsPause(r)
    ensures !s.pauseEnabled ==> r == s
  {
    if s.pauseEnabled then Toggle(s) else s
  }

  /** A click on the stop button: Tk runs `stop_task` only while the button is enabled. */
  function PressStop(s: Signals): (r: Signals)
    ensures r.stop == (s.stop || s.stopEnabled)
    ensures s.stopEnabled ==> !r.pause && !r.pauseEnabled && !r.stopEnabled && r.pauseLabel == s.pauseLabel
    ensures !s.stopEnabled ==> r == s
  {
    if s.stopEnabled then Halt(s) else s
  }

  /** The states clicks can reach: before a stop both buttons work and the label follows the flag;
      after it both buttons are dead and the pause flag is clear for good. */
  predicate Consistent(s: Signals)
  {
    && (!s.stop ==> s.pauseEnabled && s.stopEnabled && LabelFollowsPause(s))
    && (s.stop ==> !s.pause && !s.pauseEnabled && !s.stopEnabled)
  }

  /** The freshly built controls are consistent. */
  lemma InitialConsistent()
    ensures Consistent(Initial)
  {
  }

  /** Clicks keep the control state consistent. */
  lemma ClicksKeepConsistent(s: Signals)
    requires Consistent(s)
    ensures Consistent(PressPause(s)) && Consistent(PressStop(s))
  {
  }

  /** The event objects and buttons that `pause_task` and `stop_task` update in place. */
  class ControlPanel {
    var pause: bool
    var stop: bool
    var pauseLabel: string
    var pauseEnabled: bool
    var stopEnabled: bool

    function State(): Signals
      reads this
    {
      Signals(pause, stop, pauseLabel, pauseEnabled, stopEnabled)
    }

    constructor ()
      ensures State() == Initial
    {
      pause, stop := false, false;
      pauseLabel := PauseLabel;
      pauseEnabled, stopEnabled := true, true;
    }

    method PauseTask()
      modifies this
      ensures State() == Toggle(old(State()))
    {
      if pause {
        pause := false;
        pauseLabel := PauseLabel;
      } else {
        pause := true;
        pauseLabel := ResumeLabel;
      }
    }

    method StopTask()
      modifies this
      ensures State() == Halt(old(State()))
    {
      stop := true;
      pause := false;
      stopEnabled := false;
      pauseEnabled := false;
    }
  }
}

=== FILE: pipeline.dfy ===
/**
 * The worker pipeline (`task_thread` inside `start_task`) and the controls around it.
 *
 * Threads are modelled as an interleaving: a run is a sequence of events, each a Start click
 * (which spawns a worker), a pause or stop click, or one step of one worker. A worker step
 * carries what the foreign calls it makes answer (the clock, the listing, which removals raise,
 * `datetime.now()`, the outcome of `copytree`). The Tk log widget is the sequence `log`, and
 * `update_log` appends one string to it.
 */
module Pipeline {
  import opened Results
  import opened Text
  import Cleanup
  import Backup
  import opened Control

  const StoppedMessage: string := "任务已停止。"

  /** The four `TASKS` fields `task_thread` reads, with `ExpirationDays` already an integer. */
  datatype Config = Config(directory: string, days: int, source: string, target: string)

  /** Where a worker is in the body of `task_thread`. */
  datatype Phase =
    | Cleaning      // about to call clean_up_old_files
    | Waiting       // at the test of `while pause_event.is_set()`
    | CheckingStop  // past the loop, about to test stop_event
    | BackingUp     // about to call backup_directory
    | Stopping      // saw stop_event set, about to log the stop
    | Done          // returned

  /** One worker thread: its configuration, where it is, and the lines it has logged. */
  datatype Worker = Worker(config: Config, phase: Phase, written: seq<string>)

  /** One call of `shutil.copytree(source, destination)`. */
  datatype Copy = Copy(source: string, destination: string)

  /** Everything the workers and the controls share: the control flags and buttons, the directories
      cleanup works on, the workers started so far, the log widget, and the copies attempted. */
  datatype System = System(signals: Signals, dirs: map<string, Cleanup.Table>, workers: seq<Worker>,
                           log: seq<string>, copies: seq<Copy>)

  /** What the foreign calls of one worker step return. */
  datatype Env = Env(now: real, listing: Outcome<seq<string>>, locked: map<string, string>,
                     stamp: Backup.Moment, copyError: Option<string>)

  datatype Event = Start(config: Config) | PauseClick | StopClick | Tick(worker: nat, env: Env)

  /** The window just built: fresh events, no worker yet, an empty log. */
  function Boot(dirs: map<string, Cleanup.Table>): (r: System)
    ensures !r.signals.pause && !r.signals.stop && r.signals.pauseLabel == PauseLabel
    ensures r.signals.pauseEnabled && r.signals.stopEnabled
    ensures r.dirs == dirs && r.workers == [] && r.log == [] && r.copies == []
  {
    System(Initial, dirs, [], [], [])
  }

  /** Worker `i` logs `m` (`update_log`) and moves on to `phase`. */
  function Emit(s: System, i: nat, phase: Phase, m: string): (r: System)
    requires i < |s.workers|
    ensures r.log == s.log + [m] && |r.log| == |s.log| + 1 && r.log[|s.log|] == m
    ensures |r.workers| == |s.workers|
    ensures r.workers[i].config == s.workers[i].config && r.workers[i].phase == phase
    ensures r.workers[i].written == s.workers[i].written + [m]
    ensures forall j :: 0 <= j < |s.workers| && j != i ==> r.workers[j] == s.workers[j]
    ensures r.signals == s.signals && r.dirs == s.dirs && r.copies == s.copies
  {
    var w := s.workers[i];
    s.(workers := s.workers[i := w.(phase := phase, written := w.written + [m])], log := s.log + [m])
  }

  /** One step of worker `i`. It reads the flags but never changes them, touches no other worker,
      and appends at most one line to the log and at most one call to the copies. */
  function Advance(s: System, i: nat, env: Env): (r: System)
    requires i < |s.workers|
    ensures r.signals == s.signals
    ensures |r.workers| == |s.workers| && r.workers[i].config == s.workers[i].config
    ensures forall j :: 0 <= j < |s.workers| && j != i ==> r.workers[j] == s.workers[j]
    ensures |s.log| <= |r.log| <= |s.log| + 1 && r.log[..|s.log|] == s.log
    ensures |s.copies| <= |r.copies| <= |s.copies| + 1 && r.copies[..|s.copies|] == s.copies
  {
    var w := s.workers[i];
    match w.phase
    case Cleaning =>
      var d := w.config.directory;
      var table := if d in s.dirs then s.dirs[d] else map[];
      var p := Cleanup.Clean(table, env.listing, env.locked, env.now, w.config.days);
      var s' := if d in s.dirs then s.(dirs := s.dirs[d := p.entries]) else s;
      Emit(s', i, Waiting, Cleanup.Report(p))
    case Waiting =>
      if s.signals.pause then s else s.(workers := s.workers[i := w.(phase := CheckingStop)])
    case CheckingStop =>
      s.(workers := s.workers[i := w.(phase := if s.signals.stop then Stopping else BackingUp)])
    case Stopping =>
      Emit(s, i, Done, StoppedMessage)
    case BackingUp =>
      var s' := s.(copies := s.copies + [Copy(w.config.source, Backup.BackupPath(w.config.target, env.stamp))]);
      Emit(s', i, Done, Backup.BackupReport(w.config.target, env.stamp, env.copyError))
    case Done =>
      s
  }

  /** One event. A Start click always spawns another worker, whatever is running. */
  function Step(s: System, e: Event): (r: System)
    ensures s.signals.stop ==> r.signals.stop
    ensures e.Tick? ==> r.signals == s.signals
    ensures !e.Tick? ==> r.log == s.log && r.copies == s.copies && r.dirs == s.dirs
  {
    match e
    case Start(config) => s.(workers := s.workers + [Worker(config, Cleaning, [])])
    case PauseClick => s.(signals := PressPause(s.signals))
    case StopClick => s.(signals := PressStop(s.signals))
    case Tick(i, env) => if i < |s.workers| then Advance(s, i, env) else s
  }

  function Run(s: System, t: seq<Event>): System
    decreases |t|
  {
    if t == [] then s else Run(Step(s, t[0]), t[1..])
  }

  /** The three shapes of the line that ends a worker. */
  predicate IsFinalReport(m: string)
  {
    m == StoppedMessage || StartsWith(m, Backup.DonePrefix) || StartsWith(m, Backup.FailPrefix)
  }

  /** No line is both a cleanup report and a final line: the first character tells them apart. */
  lemma ReportsDisjoint(m: string)
    ensures !(Cleanup.IsCleanupReport(m) && IsFinalReport(m))
  {
    if Cleanup.IsCleanupReport(m) {
      assert m[0] in {Cleanup.NothingToDelete[0], Cleanup.DeletedPrefix[0], Cleanup.ErrorPrefix[0]};
    }
  }

  /** What a worker has logged, by phase: nothing before cleanup; then its cleanup report; at the
      end, one more line saying it stopped or how the backup went. */
  predicate WorkerWellFormed(w: Worker)
  {
    match w.phase
    case Cleaning => w.written == []
    case Done => |w.written| == 2 && Cleanup.IsCleanupReport(w.written[0]) && IsFinalReport(w.written[1])
    case _ => |w.written| == 1 && Cleanup.IsCleanupReport(w.written[0])
  }

  /** The invariant of every run: the controls are consistent, and each worker's lines are in the
      shared log, in the order the worker wrote them. */
  predicate WellFormed(s: System)
  {
    && Consistent(s.signals)
    && forall i :: 0 <= i < |s.workers| ==> WorkerWellFormed(s.workers[i]) && Subsequence(s.workers[i].written, s.log)
  }

  lemma BootWellFormed(dirs: map<string, Cleanup.Table>)
    ensures WellFormed(Boot(dirs))
  {
    InitialConsistent();
  }

  /** A line logged by worker `i` keeps every worker's lines in order in the log. */
  lemma EmitWellFormed(s: System, i: nat, phase: Phase, m: string)
    requires i < |s.workers|
    requires forall j :: 0 <= j < |s.workers| ==> Subsequence(s.workers[j].written, s.log)
    ensures var s' := Emit(s, i, phase, m);
      forall j :: 0 <= j < |s'.workers| ==> Subsequence(s'.workers[j].written, s'.log)
  {
    var s' := Emit(s, i, phase, m);
    forall j | 0 <= j < |s'.workers|
      ensures Subsequence(s'.workers[j].written, s'.log)
    {
      if j == i {
        SubsequenceAppend(s.workers[i].written, s.log, m);
      } else {
        SubsequenceExtend(s.workers[j].written, s.log, m);
      }
    }
  }

  lemma StepWellFormed(s: System, e: Event)
    requires WellFormed(s)
    ensures WellFormed(Step(s, e))
  {
    var s' := Step(s, e);
    match e
    case Start(config) =>
      assert forall j :: 0 <= j < |s.workers| ==> s'.workers[j] == s.workers[j];
    case PauseClick =>
      ClicksKeepConsistent(s.signals);
    case StopClick =>
      ClicksKeepConsistent(s.signals);
    case Tick(i, env) =>
      if i < |s.workers| {
        AdvanceWellFormed(s, i, env);
      }
  }

  /** A worker step keeps the invariant. */
  lemma AdvanceWellFormed(s: System, i: nat, env: Env)
    requires WellFormed(s) && i < |s.workers|
    ensures WellFormed(Advance(s, i, env))
  {
    var w := s.workers[i];
    match w.phase
    case Cleaning =>
      var d := w.config.directory;
      var table := if d in s.dirs then s.dirs[d] else map[];
      var p := Cleanup.Clean(table, env.listing, env.locked, env.now, w.config.days);
      var s1 := if d in s.dirs then s.(dirs := s.dirs[d := p.entries]) else s;
      EmitWellFormed(s1, i, Waiting, Cleanup.Report(p));
      assert [] + [Cleanup.Report(p)] == [Cleanup.Report(p)];
    case Waiting =>
    case CheckingStop =>
    case Stopping =>
      EmitWellFormed(s, i, Done, StoppedMessage);
    case BackingUp =>
      var s1 := s.(copies := s.copies + [Copy(w.config.source, Backup.BackupPath(w.config.target, env.stamp))]);
      EmitWellFormed(s1, i, Done, Backup.BackupReport(w.config.target, env.stamp, env.copyError));
    case Done =>
  }

  /** Every interleaving of clicks and worker steps keeps the invariant; in particular a worker's
      first line is always its cleanup report. */
  lemma {:induction false} RunWellFormed(s: System, t: seq<Event>)
    requires WellFormed(s)
    ensures WellFormed(Run(s, t))
    decreases |t|
  {
    if t != [] {
      StepWellFormed(s, t[0]);
      RunWellFormed(Step(s, t[0]), t[1..]);
    }
  }

  /** Workers are only ever added; a Start click always appends a fresh worker, whatever is running;
      a worker other than the stepping one is left alone. */
  lemma StepKeepsWorkers(s: System, e: Event)
    ensures |Step(s, e).workers| >= |s.workers|
    ensures e.Start? ==> Step(s, e).workers == s.workers + [Worker(e.config, Cleaning, [])]
    ensures forall j :: 0 <= j < |s.workers| && !(e.Tick? && e.worker == j) ==> Step(s, e).workers[j] == s.workers[j]
  {
  }

  /** Nothing ever clears the stop flag. */
  lemma {:induction false} StopIsPermanent(s: System, t: seq<Event>)
    requires s.signals.stop
    ensures Run(s, t).signals.stop
    decreases |t|
  {
    if t != [] {
      StopIsPermanent(Step(s, t[0]), t[1..]);
    }
  }

  /** The test at `if stop_event.is_set()` decides between the stop line and the backup, and the
      pause flag plays no part in it. */
  lemma StopCheckDecides(s: System, i: nat, env: Env)
    requires i < |s.workers| && s.workers[i].phase == CheckingStop
    ensures var s' := Step(s, Tick(i, env));
      && s'.workers[i].phase == (if s.signals.stop then Stopping else BackingUp)
      && s'.log == s.log && s'.copies == s.copies
  {
  }

  /** Once stop is set, `copytree` is never called again as long as no worker is already at its
      backup: a worker that reaches the stop test afterwards always takes the stop branch. */
  lemma {:induction false} NoCopyAfterStop(s: System, t: seq<Event>)
    requires s.signals.stop
    requires forall i :: 0 <= i < |s.workers| ==> s.workers[i].phase != BackingUp
    ensures Run(s, t).copies == s.copies
    ensures forall i :: 0 <= i < |Run(s, t).workers| ==> Run(s, t).workers[i].phase != BackingUp
    decreases |t|
  {
    if t != [] {
      StepKeepsWorkers(s, t[0]);
      NoCopyAfterStop(Step(s, t[0]), t[1..]);
    }
  }

  /** A worker that has not passed the stop test the backup way: it is before the test, about to
      log the stop, or finished with the stop line. */
  predicate HeadedForStop(w: Worker)
  {
    || w.phase in {Cleaning, Waiting, CheckingStop, Stopping}
    || (w.phase == Done && |w.written| > 0 && w.written[|w.written| - 1] == StoppedMessage)
  }

  /** Once stop is set, every worker not yet past the stop test, and every worker started later
      (the flag is never cleared), ends with "任务已停止。" as its last line and never backs up.
      Workers that already backed up or are backing up are not constrained. */
  lemma {:induction false} StoppedWorkersEndStopped(s: System, t: seq<Event>)
    requires s.signals.stop
    ensures forall i :: 0 <= i < |Run(s, t).workers| && (i >= |s.workers| || HeadedForStop(s.workers[i])) ==>
              HeadedForStop(Run(s, t).workers[i])
    decreases |t|
  {
    if t != [] {
      var s' := Step(s, t[0]);
      StepKeepsWorkers(s, t[0]);
      forall i | 0 <= i < |s'.workers| && (i >= |s.workers| || HeadedForStop(s.workers[i]))
        ensures HeadedForStop(s'.workers[i])
      {
        if i < |s.workers| && t[0].Tick? && t[0].worker == i {
          var w := s.workers[i];
          if w.phase == Stopping {
            assert s'.workers[i].written == w.written + [StoppedMessage];
          }
        }
      }
      StoppedWorkersEndStopped(s', t[1..]);
    }
  }

  /** Events that are not clicks on pause or stop. */
  predicate NoControlClicks(t: seq<Event>)
  {
    forall k :: 0 <= k < |t| ==> !t[k].PauseClick? && !t[k].StopClick?
  }

  /** While paused, a waiting worker makes no progress: until someone clicks pause or stop, it stays
      exactly where it is, whatever else runs. */
  lemma {:induction false} PausedWorkerWaits(s: System, t: seq<Event>, i: nat)
    requires s.signals.pause
    requires i < |s.workers| && s.workers[i].phase == Waiting
    requires NoControlClicks(t)
    ensures Run(s, t).signals == s.signals
    ensures i < |Run(s, t).workers| && Run(s, t).workers[i] == s.workers[i]
    decreases |t|
  {
    if t != [] {
      StepKeepsWorkers(s, t[0]);
      var s' := Step(s, t[0]);
      assert s'.signals == s.signals;
      assert s'.workers[i] == s.workers[i];
      assert NoControlClicks(t[1..]) by {
        forall k | 0 <= k < |t[1..]| ensures !t[1..][k].PauseClick? && !t[1..][k].StopClick? {
          assert t[1..][k] == t[k + 1];
        }
      }
      PausedWorkerWaits(s', t[1..], i);
    }
  }

  lemma RunUnfold(s: System, t: seq<Event>, rest: seq<Event>)
    requires t != [] && t[1..] == rest
    ensures Run(s, t) == Run(Step(s, t[0]), rest)
  {
  }

  /** The common start of the two runs below: Start, cleanup, and the pause test passed. */
  lemma StartToStopTest(s: System, config: Config, e1: Env, e2: Env)
    requires !s.signals.pause
    ensures var i := |s.workers|;
      var s3 := Step(Step(Step(s, Start(config)), Tick(i, e1)), Tick(i, e2));
      var table := if config.directory in s.dirs then s.dirs[config.directory] else map[];
      var cleanup := Cleanup.Report(Cleanup.Clean(table, e1.listing, e1.locked, e1.now, config.days));
      && |s3.workers| == i + 1 && s3.workers[i] == Worker(config, CheckingStop, [cleanup])
      && s3.log == s.log + [cleanup] && s3.copies == s.copies && s3.signals == s.signals
  {
    var i := |s.workers|;
    var s1 := Step(s, Start(config));
    var s2 := Step(s1, Tick(i, e1));
    assert s1.workers[i] == Worker(config, Cleaning, []);
    assert s2.workers[i].phase == Waiting && s2.signals == s.signals && s2.copies == s.copies;
  }

  /** A run of five events is five steps in a row. */
  lemma RunFive(s: System, a: Event, b: Event, c: Event, d: Event, e: Event)
    ensures Run(s, [a, b, c, d, e]) == Step(Step(Step(Step(Step(s, a), b), c), d), e)
  {
    RunUnfold(s, [a, b, c, d, e], [b, c, d, e]);
    RunUnfold(Step(s, a), [b, c, d, e], [c, d, e]);
    RunUnfold(Step(Step(s, a), b), [c, d, e], [d, e]);
    RunUnfold(Step(Step(Step(s, a), b), c), [d, e], [e]);
    RunUnfold(Step(Step(Step(Step(s, a), b), c), d), [e], []);
  }

  /** From the stop test with the flag clear: the worker copies once and logs the backup report. */
  lemma CheckThenBackup(s: System, i: nat, e3: Env, e4: Env)
    requires i < |s.workers| && s.workers[i].phase == CheckingStop && !s.signals.stop
    ensures var w := s.workers[i];
      var s5 := Step(Step(s, Tick(i, e3)), Tick(i, e4));
      var backup := Backup.BackupReport(w.config.target, e4.stamp, e4.copyError);
      && i < |s5.workers| && s5.workers[i] == w.(phase := Done, written := w.written + [backup])
      && s5.log == s.log + [backup]
      && s5.copies == s.copies + [Copy(w.config.source, Backup.BackupPath(w.config.target, e4.stamp))]
  {
    var s4 := Step(s, Tick(i, e3));
    assert s4.workers[i] == s.workers[i].(phase := BackingUp) && s4.log == s.log && s4.copies == s.copies;
  }

  /** From the stop test with the flag set: the worker logs "任务已停止。" and copies nothing. */
  lemma CheckThenStop(s: System, i: nat, e3: Env, e4: Env)
    requires i < |s.workers| && s.workers[i].phase == CheckingStop && s.signals.stop
    ensures var w := s.workers[i];
      var s5 := Step(Step(s, Tick(i, e3)), Tick(i, e4));
      && i < |s5.workers| && s5.workers[i] == w.(phase := Done, written := w.written + [StoppedMessage])
      && s5.log == s.log + [StoppedMessage]
      && s5.copies == s.copies
  {
    var s4 := Step(s, Tick(i, e3));
    assert s4.workers[i] == s.workers[i].(phase := Stopping) && s4.log == s.log && s4.copies == s.copies;
  }

  /** A run nobody interrupts: Start, then four steps of the new worker. It logs its cleanup report,
      then the backup report, and calls `copytree` once, for `source` into
      `target/backup_<timestamp>`. A cleanup that failed (a listing or removal that raised) does
      not keep the backup from running. */
  lemma UninterruptedRun(s: System, config: Config, e1: Env, e2: Env, e3: Env, e4: Env)
    requires !s.signals.pause && !s.signals.stop
    ensures var i := |s.workers|;
      var s' := Run(s, [Start(config), Tick(i, e1), Tick(i, e2), Tick(i, e3), Tick(i, e4)]);
      var table := if config.directory in s.dirs then s.dirs[config.directory] else map[];
      var cleanup := Cleanup.Report(Cleanup.Clean(table, e1.listing, e1.locked, e1.now, config.days));
      var backup := Backup.BackupReport(config.target, e4.stamp, e4.copyError);
      && i < |s'.workers| && s'.workers[i].phase == Done
      && s'.workers[i].written == [cleanup, backup]
      && s'.log == s.log + [cleanup, backup]
      && s'.copies == s.copies + [Copy(config.source, Backup.BackupPath(config.target, e4.stamp))]
  {
    var i := |s.workers|;
    var s3 := Step(Step(Step(s, Start(config)), Tick(i, e1)), Tick(i, e2));
    RunFive(s, Start(config), Tick(i, e1), Tick(i, e2), Tick(i, e3), Tick(i, e4));
    StartToStopTest(s, config, e1, e2);
    CheckThenBackup(s3, i, e3, e4);
  }

  /** Stopped before the check: Start, then four steps of the new worker. It logs its cleanup report,
      then "任务已停止。", and never calls `copytree`. */
  lemma StoppedRun(s: System, config: Config, e1: Env, e2: Env, e3: Env, e4: Env)
    requires !s.signals.pause && s.signals.stop
    ensures var i := |s.workers|;
      var s' := Run(s, [Start(config), Tick(i, e1), Tick(i, e2), Tick(i, e3), Tick(i, e4)]);
      var table := if config.directory in s.dirs then s.dirs[config.directory] else map[];
      var cleanup := Cleanup.Report(Cleanup.Clean(table, e1.listing, e1.locked, e1.now, config.days));
      && i < |s'.workers| && s'.workers[i].phase == Done
      && s'.workers[i].written == [cleanup, StoppedMessage]
      && s'.log == s.log + [cleanup, StoppedMessage]
      && s'.copies == s.copies
  {
    var i := |s.workers|;
    var s3 := Step(Step(Step(s, Start(config)), Tick(i, e1)), Tick(i, e2));
    RunFive(s, Start(config), Tick(i, e1), Tick(i, e2), Tick(i, e3), Tick(i, e4));
    StartToStopTest(s, config, e1, e2);
    CheckThenStop(s3, i, e3, e4);
  }
}

=== FILE: results.dfy ===
/** Outcomes of operations that may raise: the model's stand-in for Python exceptions. */
module Results {

  datatype Option<T> = None | Some(value: T)

  /** `Err(cause)` carries the text `str(e)` of the exception that was raised. */
  datatype Outcome<T> = Ok(value: T) | Err(cause: string)
}

=== FILE: text.dfy ===
/** String and sequence helpers: Python's `sep.join`, its inverse for name lists, prefixes and subsequences. */
module Text {

  /** `sep.join(xs)` as Python computes it. */
  function Join(xs: seq<string>, sep: string): (r: string)
    ensures xs == [] ==> r == ""
    ensures xs != [] ==> StartsWith(r, xs[0])
    ensures xs != [] ==> |xs[|xs| - 1]| <= |r| && r[|r| - |xs[|xs| - 1]|..] == xs[|xs| - 1]
  {
    if |xs| == 0 then "" else if |xs| == 1 then xs[0] else xs[0] + sep + Join(xs[1..], sep)
  }

  predicate StartsWith(s: string, prefix: string)
  {
    |prefix| <= |s| && s[..|prefix|] == prefix
  }

  /** The position of the first `c` in `s`, or `|s|` when `s` has none. */
  function IndexOf(s: string, c: char): (k: nat)
    ensures k <= |s|
    ensures forall j :: 0 <= j < k ==> s[j] != c
    ensures k < |s| ==> s[k] == c
    decreases |s|
  {
    if s == [] then 0 else if s[0] == c then 0 else 1 + IndexOf(s[1..], c)
  }

  /** Cuts a ", "-separated list back into its items: every comma ends an item and the
      character after it (the blank of the separator) is skipped. */
  function SplitList(s: string): (r: seq<string>)
    ensures |r| >= 1
    decreases |s|
  {
    var k := IndexOf(s, ',');
    if k == |s| then [s]
    else [s[..k]] + SplitList(s[if k + 2 <= |s| then k + 2 else |s|..])
  }

  /** The first `c` in `a + b` is the first of `b` when `a` has none. */
  lemma IndexOfAfter(a: string, b: string, c: char)
    requires c !in a && b != [] && b[0] == c
    ensures IndexOf(a + b, c) == |a|
  {
    assert (a + b)[|a|] == c;
    assert forall j :: 0 <= j < |a| ==> (a + b)[j] == a[j];
  }

  /** One unfolding of Join. */
  lemma JoinCons(xs: seq<string>, sep: string)
    requires |xs| > 1
    ensures Join(xs, sep) == xs[0] + (sep + Join(xs[1..], sep))
  {
  }

  /** A name with no comma, then ", ", splits off as the first item. */
  lemma SplitListCons(a: string, rest: string)
    requires ',' !in a
    ensures SplitList(a + (", " + rest)) == [a] + SplitList(rest)
  {
    var s := a + (", " + rest);
    var n := |a|;
    IndexOfAfter(a, ", " + rest, ',');
    assert s[..n] == a;
    assert s[n + 2..] == rest;
  }

  /** Joining names that hold no comma with ", " loses nothing: SplitList gives them back. */
  lemma {:induction false} SplitListJoin(xs: seq<string>)
    requires |xs| >= 1
    requires forall i :: 0 <= i < |xs| ==> ',' !in xs[i]
    ensures SplitList(Join(xs, ", ")) == xs
  {
    if |xs| > 1 {
      var tail := xs[1..];
      JoinCons(xs, ", ");
      SplitListCons(xs[0], Join(tail, ", "));
      SplitListJoin(tail);
      assert [xs[0]] + tail == xs;
    }
  }

  predicate Distinct<T(==)>(xs: seq<T>)
  {
    forall i, j :: 0 <= i < j < |xs| ==> xs[i] != xs[j]
  }

  /** `xs` is `ys` with some elements left out, the rest kept in their order. */
  predicate Subsequence<T(==)>(xs: seq<T>, ys: seq<T>)
    decreases |ys|
  {
    if xs == [] then true
    else if ys == [] then false
    else (xs[0] == ys[0] && Subsequence(xs[1..], ys[1..])) || Subsequence(xs, ys[1..])
  }

  /** Appending to the longer sequence keeps a subsequence one. */
  lemma {:induction false} SubsequenceExtend<T>(xs: seq<T>, ys: seq<T>, m: T)
    requires Subsequence(xs, ys)
    ensures Subsequence(xs, ys + [m])
    decreases |ys|
  {
    if xs != [] {
      assert (ys + [m])[1..] == ys[1..] + [m];
      if xs[0] == ys[0] && Subsequence(xs[1..], ys[1..]) {
        SubsequenceExtend(xs[1..], ys[1..], m);
      } else {
        SubsequenceExtend(xs, ys[1..], m);
      }
    }
  }

  /** Appending the same element to both keeps a subsequence one. */
  lemma {:induction false} SubsequenceAppend<T>(xs: seq<T>, ys: seq<T>, m: T)
    requires Subsequence(xs, ys)
    ensures Subsequence(xs + [m], ys + [m])
    decreases |ys|
  {
    if xs == [] {
      assert xs + [m] == [m];
      SubsequenceOfSingleton(ys, m);
    } else {
      assert (ys + [m])[1..] == ys[1..] + [m];
      assert (xs + [m])[1..] == xs[1..] + [m];
      if xs[0] == ys[0] && Subsequence(xs[1..], ys[1..]) {
        SubsequenceAppend(xs[1..], ys[1..], m);
      } else {
        SubsequenceAppend(xs, ys[1..], m);
      }
    }
  }

  lemma {:induction false} SubsequenceOfSingleton<T>(ys: seq<T>, m: T)
    ensures Subsequence([m], ys + [m])
    decreases |ys|
  {
    if ys != [] {
      assert (ys + [m])[1..] == ys[1..] + [m];
      if ys[0] != m {
        SubsequenceOfSingleton(ys[1..], m);
      }
    }
  }
}
